=== FILE: README.md ===
# Order business rules of a warehouse-management system

This project models the business logic of the `Order` entity of a desktop
warehouse-management application (`src/org/wms/model/order/Order.java`). An
order holds a list of order rows. Each row names a material and carries an
"allocated" and a "completed" flag. From these flags the order derives two
percentages, allocation and completion. The percentages decide whether the
order is still editable and whether it may be deleted. The operations are:

* guarded setters for the id, the emission date and the priority, which report
  success as a boolean and never throw;
* guarded edits of the row list (`addMaterial`, `removeMaterial`);
* marking the first row of a material as allocated or completed;
* recomputing each percentage from the row flags;
* the `isEditable` and `canDelete` predicates.

The Java class mutates itself in place. In the model an `Order` is an immutable
datatype and every mutator is a pure function that returns the new order. Where
the source returns a success flag, the function returns `(Order, bool)`.

Modules, one per concern:

* `Base`: nullable references (`Option`) and Java's `long`.
* `OrderRows`: the row record, counting rows by flag, finding the first row of
  a material, and `List.remove(Object)`.
* `Percentages`: `part / whole * 100` as an exact rational.
* `Orders`: the entity, its constructors and its operations.
* `OrderProperties`: what the percentages mean, plus round trips, idempotence
  and monotonicity.
* `OrderLifecycle`: sequences of calls. The percentages stay up to date, and a
  fully allocated or fully completed order never becomes editable again.
* `OrderFindings`: the three places where the code and its doc-comments
  disagree.

Assumptions about collaborators that are not part of this model:

* `OrderRow` and `Material` are reduced to the fields `Order` reads. Those are
  the row's id (`getId()`), the material code, the two flags and
  `isDataComplete()`. `Order` also reads `OrderRow.equals`, through
  `List.remove(Object)` in `removeMaterial`.
* `OrderRow.setAllocated()` and `setCompleted()` are assumed to set their flag
  to true and change nothing else (`OrderRows.Mark`).
* `OrderRow.equals` is taken to tell rows apart by id: two rows are equal only
  when their ids agree, and the model compares the id together with the other
  fields. Rows with different ids are never confused by `removeMaterial`.
* The constructor `Order(long id)` reads the clock (`new Date()`). In the model
  the current date is a parameter (`Orders.NewOrderNow`).
* The enums `Priority`, `OrderType` and `OrderStatus` are not shown. Each
  constant is represented by its name. The only constants `Order` names are
  `LOW`, `INPUT` and `WAITING`.

Where the code and its doc-comments disagree, the model follows the code:

* `setId` tests its argument, not the current id.
* `addMaterial` returns false even when it adds the row.
* `canDelete` combines its two tests with OR, while its comment says AND.

The members in `Orders` model the code as written. `OrderFindings` defines the
documented behaviour next to them and proves its properties.

An order built by the constructor that takes a row list does not recompute its
percentages. For that reason "each percentage equals the share of flagged
rows" (`Orders.Consistent`) is not a class invariant. Instead, every mutator
states it as a postcondition. `OrderProperties.RowsConstructorLeavesPercentualsStale`
shows an order for which it fails.

## Model

| member | source | states |
|---|---|---|
| OrderRows.Count | src/org/wms/model/order/Order.java:323-325 | the number of rows carrying a flag never exceeds the number of rows |
| OrderRows.CountFull | src/org/wms/model/order/Order.java:323-326 | the flag count equals the row count exactly when every row carries the flag |
| OrderRows.CountEmpty | src/org/wms/model/order/Order.java:323-326 | the flag count is zero exactly when no row carries the flag |
| OrderRows.CountAppend | src/org/wms/model/order/Order.java:199-200 | appending a row raises the count by one if the row carries the flag, else leaves it |
| OrderRows.CountRemoveAt | src/org/wms/model/order/Order.java:217-218 | deleting a row lowers the count by one if that row carried the flag, else leaves it |
| OrderRows.CountUpdate | src/org/wms/model/order/Order.java:277-278 | replacing one row changes the count only by the difference of the old and new row's flag |
| OrderRows.Mark | src/org/wms/model/order/Order.java:277 | marking a row sets exactly that flag to true and leaves material, other flag and data-completeness alone |
| OrderRows.FindFirstWithCode | src/org/wms/model/order/Order.java:272-274 | returns the position of the first row whose material has the code, none exactly when no row has it |
| OrderRows.IndexOf | src/org/wms/model/order/Order.java:217 | returns the first position holding the row, none exactly when the row is absent |
| OrderRows.RemoveFirst | src/org/wms/model/order/Order.java:217 | removes exactly one copy of the row, its first occurrence, keeping the others in order; absent row leaves the list unchanged |
| OrderRows.MarkFirstWithCode | src/org/wms/model/order/Order.java:272-277 | marking the first row with the code changes that row alone and leaves the other flag's count unchanged |
| OrderRows.RemoveFirstAfterAppend | src/org/wms/model/order/Order.java:199-217 | removing a row just appended to a list that did not hold it gives back the original list |
| Percentages.Percent | src/org/wms/model/order/Order.java:318-326 | the percentage lies in [0, 100], is 0 for no rows and otherwise times the row count equals 100 times the flagged count |
| Percentages.PercentBelowFull | src/org/wms/model/order/Order.java:352 | the percentage is below 100 exactly when there are no rows or some row lacks the flag |
| Percentages.PercentAtMostZero | src/org/wms/model/order/Order.java:365 | the percentage is at most 0 exactly when no row carries the flag |
| Percentages.PercentMonotonic | src/org/wms/model/order/Order.java:326 | more flagged rows out of the same total never give a smaller percentage |
| Orders.EmptyOrder | src/org/wms/model/order/Order.java:30-59 | a default order has id 0, no date, no type, no done date, priority LOW, status WAITING, no rows and both percentages 0, and is consistent, editable, deletable and data-incomplete |
| Orders.NewOrder | src/org/wms/model/order/Order.java:72-82 | the constructor stores id, date, type and priority (date, type and priority possibly null), starts without rows and with consistent zero percentages |
| Orders.NewOrderDefaultPriority | src/org/wms/model/order/Order.java:72-77 | the three-argument constructor is the four-argument one with priority LOW |
| Orders.NewOrderNow | src/org/wms/model/order/Order.java:63-68 | the id-only constructor is emitted now, of type INPUT with priority LOW, and is data-complete exactly when the id is non-zero |
| Orders.NewOrderWithRows | src/org/wms/model/order/Order.java:84-88 | the row-list constructor adopts the rows but leaves both percentages at 0, so the order is editable and deletable whatever the rows |
| Orders.IsDataComplete | src/org/wms/model/order/Order.java:117-124 | the data is complete exactly when the id is non-zero and an emission date is present |
| Orders.IsEditable | src/org/wms/model/order/Order.java:351-353 | with up-to-date percentages, the order is editable exactly when it has no rows, or some row is unallocated and some row is uncompleted |
| Orders.CanDelete | src/org/wms/model/order/Order.java:364-366 | with up-to-date percentages, the order is deletable exactly when no row is allocated OR no row is completed |
| Orders.SetId | src/org/wms/model/order/Order.java:103-108 | succeeds exactly when the argument is 0, then the id becomes 0; otherwise the order is unchanged |
| Orders.SetEmissionDate | src/org/wms/model/order/Order.java:141-146 | succeeds exactly when the order is editable and then changes only the emission date; otherwise the order is unchanged |
| Orders.SetPriority | src/org/wms/model/order/Order.java:171-176 | succeeds exactly when the order is editable and then changes only the priority, null included; otherwise the order is unchanged |
| Orders.UpdatePercentual | src/org/wms/model/order/Order.java:317-343 | the recomputed percentage is 0 without rows and otherwise 100 times the share of flagged rows; the other percentage and all other fields are unchanged |
| Orders.UpdateAllocatedPercentual | src/org/wms/model/order/Order.java:317-327 | the allocation percentage becomes 0 without rows, else 100 times allocated over total; nothing else changes |
| Orders.UpdateCompletedPercentual | src/org/wms/model/order/Order.java:333-343 | the completion percentage becomes 0 without rows, else 100 times completed over total; nothing else changes |
| Orders.UpdatePercentuals | src/org/wms/model/order/Order.java:200-201 | after recomputing both, both percentages agree with the rows and no other field changes |
| Orders.AddMaterial | src/org/wms/model/order/Order.java:196-203 | always reports false; a non-editable order or an incomplete row leaves the order unchanged, otherwise the row is appended at the end with both percentages recomputed and nothing else changed |
| Orders.RemoveMaterial | src/org/wms/model/order/Order.java:214-221 | reports true exactly when the order is editable; then the first occurrence of the row is removed (none if absent) and both percentages recomputed; otherwise nothing changes |
| Orders.MarkMaterial | src/org/wms/model/order/Order.java:271-311 | only the first row with the code is marked, all other rows and their order unchanged; no match changes nothing; only the marked flag's percentage is recomputed; consistency is preserved |
| Orders.SetMaterialAsAllocatedByCode | src/org/wms/model/order/Order.java:271-280 | only the first row with the code is marked allocated, every other row and every other order field unchanged; the allocation percentage is recomputed, the completion percentage untouched; without a match nothing changes |
| Orders.SetMaterialAsAllocated | src/org/wms/model/order/Order.java:259-261 | the material overload acts as the code overload on the material's code |
| Orders.SetMaterialAsCompletedByCode | src/org/wms/model/order/Order.java:302-311 | only the first row with the code is marked completed, every other row and every other order field unchanged; the completion percentage is recomputed, the allocation percentage untouched; without a match nothing changes |
| Orders.SetMaterialAsCompleted | src/org/wms/model/order/Order.java:290-292 | the material overload acts as the code overload on the material's code |
| OrderProperties.NoRowsNoPercentuals | src/org/wms/model/order/Order.java:318-320 | an up-to-date order with no rows has both percentages 0 and is editable and deletable |
| OrderProperties.PercentualFormula | src/org/wms/model/order/Order.java:317-343 | an up-to-date percentage lies in [0, 100], is 0 without rows and otherwise times the row count equals 100 times the flagged count |
| OrderProperties.PercentualFull | src/org/wms/model/order/Order.java:326 | an up-to-date percentage reaches 100 exactly when there are rows and all of them carry the flag |
| OrderProperties.PercentualZero | src/org/wms/model/order/Order.java:326 | an up-to-date percentage is at most 0 exactly when no row carries the flag |
| OrderProperties.MarkMaterialCount | src/org/wms/model/order/Order.java:271-280 | marking adds one flagged row exactly when the first row of the material lacked the flag, and leaves the other flag's count alone |
| OrderProperties.MarkMaterialNeverLowers | src/org/wms/model/order/Order.java:277-278 | marking never lowers an up-to-date percentage |
| OrderProperties.MarkMaterialIdempotent | src/org/wms/model/order/Order.java:271-280 | marking the same material twice equals marking it once |
| OrderProperties.AddThenRemoveRestores | src/org/wms/model/order/Order.java:196-221 | adding a new row and removing it again restores an up-to-date order, when some row (new or old) is still unallocated and some still uncompleted, so the order stays editable in between |
| OrderProperties.RemoveAbsentRowKeepsOrder | src/org/wms/model/order/Order.java:214-221 | removing an absent row from an up-to-date editable order changes nothing and reports true |
| OrderProperties.NonEditableRefusesEdits | src/org/wms/model/order/Order.java:141-221 | a non-editable order refuses date, priority, add and remove, and stays unchanged |
| OrderProperties.TwoOfFourAllocated | src/org/wms/model/order/Order.java:317-327 | four rows of which two are allocated give an allocation percentage of exactly 50 |
| OrderProperties.RowsConstructorLeavesPercentualsStale | src/org/wms/model/order/Order.java:84-88 | a row-list order whose only row is allocated and completed is inconsistent and editable until recomputed, then not editable |
| OrderLifecycle.Apply | src/org/wms/model/order/Order.java:103-343 | every single call keeps an up-to-date order up to date, keeps an up-to-date non-editable order non-editable, and never touches type, status or done date |
| OrderLifecycle.ApplyAll | src/org/wms/model/order/Order.java:103-343 | the same for any sequence of calls |
| OrderLifecycle.ConstructedOrdersStayConsistent | src/org/wms/model/order/Order.java:58-82 | an order built without a row list stays up to date under any sequence of calls |
| OrderLifecycle.FullOrderStaysFrozen | src/org/wms/model/order/Order.java:351-353 | once every row of an up-to-date order is allocated, or every row completed, no sequence of calls makes it editable |
| OrderFindings.SetIdNeverAssignsNonZero | src/org/wms/model/order/Order.java:103-108 | setId as written either leaves the id alone or sets it to 0 |
| OrderFindings.SetIdRefusesNewOrder | src/org/wms/model/order/Order.java:97-108 | a new order asked to take id 7 refuses as written, while the documented setter accepts |
| OrderFindings.SetIdIntended | src/org/wms/model/order/Order.java:97-102 | the documented setter succeeds exactly when the current id is 0 and then stores the argument |
| OrderFindings.SetIdIntendedKeepsAssignedId | src/org/wms/model/order/Order.java:97-102 | once the documented setter has stored a non-zero id, later calls are refused |
| OrderFindings.AddMaterialHidesSuccess | src/org/wms/model/order/Order.java:196-203 | addMaterial as written appends the row and still reports false |
| OrderFindings.AddMaterialIntended | src/org/wms/model/order/Order.java:185-203 | the documented addMaterial has the same effect and reports true exactly when the row is added |
| OrderFindings.CanDeleteIntended | src/org/wms/model/order/Order.java:357-363 | the documented rule: with up-to-date percentages, the order is deletable exactly when no row is allocated and no row is completed |
| OrderFindings.CanDeleteAcceptsAllocatedOrder | src/org/wms/model/order/Order.java:364-366 | a consistent order whose only row is allocated but not completed has allocation 100 and passes canDelete as written, but not the documented rule |

## Left out

- Persistence: the JPA/Hibernate annotations are mapping metadata and carry no behaviour.
- Getters: `getId`, `getEmissionDate`, `getType`, `getPriority`, `getOrderStatus`, `getCompletePercentual`, `getAllocationPercentual` and `getDoneDate` are field reads. `getUnmodificableMaterials` is a read-only view of the rows. These are the datatype's fields.
- Floating point: the percentages are `float` in the source and exact rationals here. With very many rows (more than 2^24, where `rows.size()` as a `float` rounds 2^24+1 down to 2^24), single-precision rounding could make `k / n * 100` equal `100.0f` for `k < n`. An order could then stop being editable earlier than the exact model says. `canDelete` is unaffected: the float percentage is 0 exactly when no row carries the flag. IEEE arithmetic is not modelled.
- Identity and aliasing: the source marks a row by mutating the shared `OrderRow` object. The model replaces the row in the sequence. Other holders of the same row object are not part of this model.
- Orders.RemoveMaterial: rows are told apart by id and fields, not by object identity. If `OrderRow.equals` is the default identity test, two distinct row objects with the same id and the same fields (for example two unsaved rows with id 0) are different rows in the source but the same row here, so removing one of them removes the first of the two. The source of `OrderRow` is not part of this model.
- Orders.MarkMaterial: treats every slot of the row list as an independent value. In the source, `addMaterial` accepts a row object that is already in the list, and marking that object flips every slot holding it. With the same object in both slots of a two-row order, the source reaches allocation 100 and stops being editable. The model marks slot 0 only, giving 50 and an editable order.
- Orders.NewOrderWithRows: the source keeps the caller's list object, so later changes the caller makes to that list show up in the order. The model copies the rows as a value. A null list, which makes later calls throw, has no counterpart.
- Orders.AddMaterial: has no null row. In the source, `addMaterial(null)` on an editable order throws a NullPointerException. Null arguments that throw elsewhere have no counterpart either: `setMaterialAsAllocated((Material) null)` and its completion twin, and a row with a null material standing before the matching row.
- `OrderRow`, `Material`, `Priority`, `OrderType` and `OrderStatus` are not part of this model beyond the fields and constants `Order` uses.
- `orderStatus` and `doneDate` are never changed by the code shown. The model carries them only to state that they stay unchanged.
- Batches, the warehouse topology and the Swing controllers are not part of this model. The batch view controller only wires listeners and fills reports. The warehouse shelf has only getters. The controller test drives mocked GUI components.

## Findings

| source | as written | input that shows it | evidently intended | confidence | as-written member | corrected member |
|---|---|---|---|---|---|---|
| src/org/wms/model/order/Order.java:103-108 | `setId` tests the argument (`id != 0`), so it only ever stores 0, and `setId(0)` resets an assigned id to 0 | a new order (id 0) with `setId(7)`: returns false, id stays 0 | succeed while the current id is 0 and store the argument | high, not executed | Orders.SetId, OrderFindings.SetIdRefusesNewOrder | OrderFindings.SetIdIntended |
| src/org/wms/model/order/Order.java:196-203 | `addMaterial` returns false after adding the row | an editable order and a data-complete row: the row is appended, result false | return true when the row is added | high, not executed | Orders.AddMaterial, OrderFindings.AddMaterialHidesSuccess | OrderFindings.AddMaterialIntended |
| src/org/wms/model/order/Order.java:357-366 | `canDelete` accepts when EITHER percentage is at most 0 | an order whose only row is allocated and not completed: allocation 100, `canDelete` true | both percentages must be 0 | medium, not executed | Orders.CanDelete, OrderFindings.CanDeleteAcceptsAllocatedOrder | OrderFindings.CanDeleteIntended |

=== FILE: base.dfy ===
/**
 Java value shapes the Order entity relies on: a nullable reference and the
 64-bit `long` used for identifiers and material codes.
 */
module Base {

  /** A Java reference that may be null (`None`), or `java.util.Optional`. */
  datatype Option<+T> = None | Some(value: T)

  /** Java's `long`. The Order code never does arithmetic on one, so only its range matters. */
  type Long = x: int | -0x8000_0000_0000_0000 <= x < 0x8000_0000_0000_0000
}

=== FILE: order_findings.dfy ===
/**
 Three places where Order's code and its own doc-comments disagree. For
 each, the code as written (in `Orders`) is shown to differ on a concrete
 input, and the documented behaviour is defined here with its property proved.
 */
module OrderFindings {
  import opened Base
  import opened OrderRows
  import opened Percentages
  import opened Orders

  // ---------------------------------------------------------------- setId

  /** `setId` as written never gives an order a non-zero id: it either leaves the id alone or sets it to 0. */
  lemma SetIdNeverAssignsNonZero(o: Order, id: Long)
    ensures SetId(o, id).0.id == o.id || SetId(o, id).0.id == 0
  {
  }

  /** A new order (id 0) asked to take id 7 refuses and keeps id 0; the documented setter accepts it. */
  lemma SetIdRefusesNewOrder()
    ensures SetId(EmptyOrder(), 7) == (EmptyOrder(), false)
    ensures SetIdIntended(EmptyOrder(), 7) == (EmptyOrder().(id := 7), true)
  {
  }

  /** `setId` as documented: only an order that is still new (id 0) takes the given id. */
  function SetIdIntended(o: Order, id: Long): (res: (Order, bool))
    ensures res.1 <==> o.id == 0
    ensures res.1 ==> res.0 == o.(id := id)
    ensures !res.1 ==> res.0 == o
  {
    if o.id != 0 then (o, false)
    else (o.(id := id), true)
  }

  /** Once an order has a non-zero id, the documented setter can never change it. */
  lemma SetIdIntendedKeepsAssignedId(o: Order, id: Long, id': Long)
    requires o.id == 0 && id != 0
    ensures SetIdIntended(o, id).0.id == id
    ensures SetIdIntended(SetIdIntended(o, id).0, id') == (SetIdIntended(o, id).0, false)
  {
  }

  // ---------------------------------------------------------------- addMaterial

  /** `addMaterial` as written adds the row and still reports false. */
  lemma AddMaterialHidesSuccess(o: Order, row: OrderRow)
    requires IsEditable(o) && row.dataComplete
    ensures AddMaterial(o, row).0.rows == o.rows + [row]
    ensures !AddMaterial(o, row).1
  {
  }

  /** `addMaterial` as documented: same effect, reporting true exactly when the row is added. */
  function AddMaterialIntended(o: Order, row: OrderRow): (res: (Order, bool))
    ensures res.0 == AddMaterial(o, row).0
    ensures res.1 <==> IsEditable(o) && row.dataComplete
    ensures res.1 ==> res.0.rows == o.rows + [row] && Consistent(res.0)
    ensures !res.1 ==> res.0 == o
  {
    if !IsEditable(o) || !row.dataComplete then (o, false)
    else (UpdatePercentuals(o.(rows := o.rows + [row])), true)
  }

  // ---------------------------------------------------------------- canDelete

  /**
   `canDelete` as documented: both percentages must still be 0. With the
   percentages up to date, that is: no row allocated and no row completed.
   */
  function CanDeleteIntended(o: Order): (deletable: bool)
    ensures Consistent(o) ==>
              (deletable <==>
                 && (forall i :: 0 <= i < |o.rows| ==> !o.rows[i].isAllocated)
                 && (forall i :: 0 <= i < |o.rows| ==> !o.rows[i].isCompleted))
  {
    PercentAtMostZero(Count(o.rows, Allocated), |o.rows|);
    PercentAtMostZero(Count(o.rows, Completed), |o.rows|);
    CountEmpty(o.rows, Allocated);
    CountEmpty(o.rows, Completed);
    o.allocationPercentual <= 0.0 && o.completePercentual <= 0.0
  }

  /**
   An order whose only row is fully allocated but not completed passes the
   code's `canDelete`, though the documented rule refuses it.
   */
  lemma CanDeleteAcceptsAllocatedOrder(o: Order, row: OrderRow)
    requires Consistent(o) && o.rows == [row]
    requires row.isAllocated && !row.isCompleted
    ensures o.allocationPercentual == 100.0
    ensures CanDelete(o)
    ensures !CanDeleteIntended(o)
  {
  }
}

=== FILE: order_lifecycle.dfy ===
/**
 An order's life as a sequence of calls on the Order entity. Every mutator
 keeps the stored percentages in step with the rows, and once an up-to-date
 order has stopped being editable no call makes it editable again: edits that
 could lower a percentage are refused, and marking only raises them.
 */
module OrderLifecycle {
  import opened Base
  import opened OrderRows
  import opened Orders
  import opened OrderProperties

  /** One call on an order. */
  datatype Operation =
    | SetIdOp(id: Long)
    | SetEmissionDateOp(emissionDate: Option<Date>)
    | SetPriorityOp(priority: Option<Priority>)
    | AddMaterialOp(row: OrderRow)
    | RemoveMaterialOp(row: OrderRow)
    | SetMaterialAsAllocatedOp(code: Long)
    | SetMaterialAsCompletedOp(code: Long)
    | UpdateAllocatedPercentualOp
    | UpdateCompletedPercentualOp

  /** The order after one call, its boolean result dropped. */
  function Apply(o: Order, op: Operation): (r: Order)
    ensures Consistent(o) ==> Consistent(r)
    ensures Consistent(o) && !IsEditable(o) ==> !IsEditable(r)
    ensures r.orderType == o.orderType && r.orderStatus == o.orderStatus && r.doneDate == o.doneDate
  {
    match op
    case SetIdOp(id) => SetId(o, id).0
    case SetEmissionDateOp(emissionDate) => SetEmissionDate(o, emissionDate).0
    case SetPriorityOp(priority) => SetPriority(o, priority).0
    case AddMaterialOp(row) => AddMaterial(o, row).0
    case RemoveMaterialOp(row) => RemoveMaterial(o, row).0
    case SetMaterialAsAllocatedOp(code) =>
      MarkMaterialNeverLowers(o, code, Allocated);
      SetMaterialAsAllocatedByCode(o, code)
    case SetMaterialAsCompletedOp(code) =>
      MarkMaterialNeverLowers(o, code, Completed);
      SetMaterialAsCompletedByCode(o, code)
    case UpdateAllocatedPercentualOp => UpdateAllocatedPercentual(o)
    case UpdateCompletedPercentualOp => UpdateCompletedPercentual(o)
  }

  /** The order after a sequence of calls, in order. */
  function ApplyAll(o: Order, ops: seq<Operation>): (r: Order)
    ensures Consistent(o) ==> Consistent(r)
    ensures Consistent(o) && !IsEditable(o) ==> !IsEditable(r)
    ensures r.orderType == o.orderType && r.orderStatus == o.orderStatus && r.doneDate == o.doneDate
    decreases |ops|
  {
    if |ops| == 0 then o else ApplyAll(Apply(o, ops[0]), ops[1..])
  }

  /** Every order built without a row list and then driven by calls keeps its percentages up to date. */
  lemma ConstructedOrdersStayConsistent(id: Long, emissionDate: Option<Date>, orderType: Option<OrderType>,
                                        priority: Option<Priority>, ops: seq<Operation>)
    ensures Consistent(ApplyAll(NewOrder(id, emissionDate, orderType, priority), ops))
    ensures Consistent(ApplyAll(EmptyOrder(), ops))
  {
  }

  /** Once every row of an up-to-date order is allocated, or every row completed, the order is never editable again. */
  lemma FullOrderStaysFrozen(o: Order, ops: seq<Operation>)
    requires Consistent(o) && |o.rows| > 0
    requires (forall i :: 0 <= i < |o.rows| ==> o.rows[i].isAllocated)
          || (forall i :: 0 <= i < |o.rows| ==> o.rows[i].isCompleted)
    ensures !IsEditable(ApplyAll(o, ops))
  {
  }
}

=== FILE: order_properties.dfy ===
/**
 What the derived percentages mean for an order, and how the operations of
 `Orders` relate to one another.
 */
module OrderProperties {
  import opened Base
  import opened OrderRows
  import opened Percentages
  import opened Orders

  /** An up-to-date order without rows has both percentages at 0, is editable and deletable. */
  lemma NoRowsNoPercentuals(o: Order)
    requires Consistent(o) && o.rows == []
    ensures o.allocationPercentual == 0.0 && o.completePercentual == 0.0
    ensures IsEditable(o) && CanDelete(o)
  {
  }

  /** An up-to-date percentage is 100 times the share of flagged rows, so it lies in [0, 100]. */
  lemma PercentualFormula(o: Order, flag: Flag)
    requires PercentualUpToDate(o, flag)
    ensures 0.0 <= Percentual(o, flag) <= 100.0
    ensures |o.rows| == 0 ==> Percentual(o, flag) == 0.0
    ensures |o.rows| > 0 ==> Percentual(o, flag) * (|o.rows| as real) == 100.0 * (Count(o.rows, flag) as real)
  {
  }

  /** An up-to-date percentage reaches 100 exactly when there are rows and every one carries the flag. */
  lemma PercentualFull(o: Order, flag: Flag)
    requires PercentualUpToDate(o, flag)
    ensures Percentual(o, flag) >= 100.0 <==>
              |o.rows| > 0 && forall i :: 0 <= i < |o.rows| ==> HasFlag(o.rows[i], flag)
  {
    PercentBelowFull(Count(o.rows, flag), |o.rows|);
    CountFull(o.rows, flag);
  }

  /** An up-to-date percentage is at most 0 exactly when no row carries the flag. */
  lemma PercentualZero(o: Order, flag: Flag)
    requires PercentualUpToDate(o, flag)
    ensures Percentual(o, flag) <= 0.0 <==> forall i :: 0 <= i < |o.rows| ==> !HasFlag(o.rows[i], flag)
  {
    PercentAtMostZero(Count(o.rows, flag), |o.rows|);
    CountEmpty(o.rows, flag);
  }

  /** Marking a material adds one flagged row when its first row lacked the flag, and none otherwise. */
  lemma MarkMaterialCount(o: Order, code: Long, flag: Flag)
    ensures Count(MarkMaterial(o, code, flag).rows, flag) ==
              Count(o.rows, flag)
              + (if exists j :: IsFirstWithCode(o.rows, code, j) && !HasFlag(o.rows[j], flag) then 1 else 0)
    ensures Count(MarkMaterial(o, code, flag).rows, OtherFlag(flag)) == Count(o.rows, OtherFlag(flag))
  {
    var r := MarkMaterial(o, code, flag);
    match FindFirstWithCode(o.rows, code)
    case None =>
    case Some(i) =>
      assert r.rows == o.rows[i := Mark(o.rows[i], flag)];
      CountUpdate(o.rows, i, Mark(o.rows[i], flag), flag);
      CountUpdate(o.rows, i, Mark(o.rows[i], flag), OtherFlag(flag));
  }

  /** Marking never lowers an up-to-date percentage. */
  lemma MarkMaterialNeverLowers(o: Order, code: Long, flag: Flag)
    ensures PercentualUpToDate(o, flag) ==> Percentual(MarkMaterial(o, code, flag), flag) >= Percentual(o, flag)
  {
    var r := MarkMaterial(o, code, flag);
    if PercentualUpToDate(o, flag) && !NoneWithCode(o.rows, code) {
      MarkMaterialCount(o, code, flag);
      PercentMonotonic(Count(o.rows, flag), Count(r.rows, flag), |o.rows|);
    }
  }

  /** Marking the same material twice is the same as marking it once. */
  lemma MarkMaterialIdempotent(o: Order, code: Long, flag: Flag)
    ensures MarkMaterial(MarkMaterial(o, code, flag), code, flag) == MarkMaterial(o, code, flag)
  {
    var r := MarkMaterial(o, code, flag);
    match FindFirstWithCode(o.rows, code)
    case None =>
    case Some(i) =>
      assert forall k :: 0 <= k < |o.rows| ==> r.rows[k].material == o.rows[k].material;
      assert IsFirstWithCode(r.rows, code, i);
      assert FindFirstWithCode(r.rows, code) == Some(i);
      assert r.rows[i := Mark(r.rows[i], flag)] == r.rows;
  }

  /**
   Adding a new row to an editable order and then removing it restores the
   order, provided the order stays editable in between: the new row, or some
   existing one, is still unallocated, and likewise for completion.
   */
  lemma AddThenRemoveRestores(o: Order, row: OrderRow)
    requires Consistent(o) && IsEditable(o) && row.dataComplete && row !in o.rows
    requires !row.isAllocated || exists i :: 0 <= i < |o.rows| && !o.rows[i].isAllocated
    requires !row.isCompleted || exists i :: 0 <= i < |o.rows| && !o.rows[i].isCompleted
    ensures RemoveMaterial(AddMaterial(o, row).0, row) == (o, true)
  {
    var added := AddMaterial(o, row).0;
    assert added.rows == o.rows + [row];
    assert forall i :: 0 <= i < |o.rows| ==> added.rows[i] == o.rows[i];
    assert added.rows[|o.rows|] == row;
    assert IsEditable(added);
    RemoveFirstAfterAppend(o.rows, row);
  }

  /** Removing a row the order does not hold changes nothing in an up-to-date order. */
  lemma RemoveAbsentRowKeepsOrder(o: Order, row: OrderRow)
    requires Consistent(o) && IsEditable(o) && row !in o.rows
    ensures RemoveMaterial(o, row) == (o, true)
  {
  }

  /** A non-editable order refuses every guarded setter and edit, and stays as it is. */
  lemma NonEditableRefusesEdits(o: Order, emissionDate: Option<Date>, priority: Option<Priority>, row: OrderRow)
    requires !IsEditable(o)
    ensures SetEmissionDate(o, emissionDate) == (o, false)
    ensures SetPriority(o, priority) == (o, false)
    ensures AddMaterial(o, row) == (o, false)
    ensures RemoveMaterial(o, row) == (o, false)
  {
  }

  /** Four rows of which two are allocated give an allocation percentage of exactly 50. */
  lemma TwoOfFourAllocated(o: Order, a: OrderRow, b: OrderRow, c: OrderRow, d: OrderRow)
    requires o.rows == [a, b, c, d]
    requires a.isAllocated && !b.isAllocated && c.isAllocated && !d.isAllocated
    ensures UpdateAllocatedPercentual(o).allocationPercentual == 50.0
  {
    assert [d][1..] == [];
    assert Count([d], Allocated) == 0;
    assert [c, d][1..] == [d];
    assert Count([c, d], Allocated) == 1;
    assert [b, c, d][1..] == [c, d];
    assert Count([b, c, d], Allocated) == 1;
    assert o.rows[1..] == [b, c, d];
    assert Count(o.rows, Allocated) == 2;
  }

  /**
   The constructor that adopts a row list leaves both percentages at 0: an
   order whose only row is allocated and completed is editable until a
   percentage is recomputed.
   */
  lemma RowsConstructorLeavesPercentualsStale(id: Long, emissionDate: Option<Date>, orderType: Option<OrderType>,
                                              priority: Option<Priority>, row: OrderRow)
    requires row.isAllocated && row.isCompleted
    ensures var o := NewOrderWithRows(id, emissionDate, orderType, priority, [row]);
            && !Consistent(o)
            && IsEditable(o)
            && Consistent(UpdatePercentuals(o))
            && !IsEditable(UpdatePercentuals(o))
  {
  }
}

=== FILE: order_rows.dfy ===
/**
 Order rows as far as the Order entity sees them, and the list operations
 Order performs on them: counting rows by flag, finding the first row of a
 material, removing the first occurrence of a row.

 OrderRow and Material are not part of this model. A row is reduced to its
 id and the four things Order reads from it, and `OrderRow.setAllocated` /
 `OrderRow.setCompleted` are assumed to set their flag to true and change
 nothing else (see `Mark`).
 */
module OrderRows {
  import opened Base

  /** A stock-keeping unit, identified by its numeric code. */
  datatype Material = Material(code: Long)

  /**
   One line item of an order. `id` stands for `OrderRow.getId()` and gives a
   row its identity: two rows are the same row only when every field, the id
   included, agrees. `dataComplete` stands for `OrderRow.isDataComplete()`.
   */
  datatype OrderRow = OrderRow(id: Long, material: Material, isAllocated: bool, isCompleted: bool, dataComplete: bool)

  /** The two per-row flags an order derives a percentage from. */
  datatype Flag = Allocated | Completed

  predicate HasFlag(row: OrderRow, flag: Flag) {
    match flag
    case Allocated => row.isAllocated
    case Completed => row.isCompleted
  }

  /** `OrderRow.setAllocated()` or `OrderRow.setCompleted()`, by flag. */
  function Mark(row: OrderRow, flag: Flag): (r: OrderRow)
    ensures r.isAllocated == (row.isAllocated || flag == Allocated)
    ensures r.isCompleted == (row.isCompleted || flag == Completed)
    ensures r.id == row.id && r.material == row.material && r.dataComplete == row.dataComplete
  {
    match flag
    case Allocated => row.(isAllocated := true)
    case Completed => row.(isCompleted := true)
  }

  /** The flag that is not `flag`. */
  function OtherFlag(flag: Flag): (other: Flag)
    ensures other != flag
  {
    match flag
    case Allocated => Completed
    case Completed => Allocated
  }

  /** 1 when the row carries the flag, 0 otherwise. */
  function Indicator(row: OrderRow, flag: Flag): nat {
    if HasFlag(row, flag) then 1 else 0
  }

  /** Number of rows carrying `flag`, as the order counts them when it recomputes a percentage. */
  function Count(rows: seq<OrderRow>, flag: Flag): (n: nat)
    ensures n <= |rows|
  {
    if |rows| == 0 then 0 else Indicator(rows[0], flag) + Count(rows[1..], flag)
  }

  /** Every row carries the flag exactly when the count reaches the number of rows. */
  lemma {:induction false} CountFull(rows: seq<OrderRow>, flag: Flag)
    ensures Count(rows, flag) == |rows| <==> forall i :: 0 <= i < |rows| ==> HasFlag(rows[i], flag)
  {
    if |rows| > 0 {
      var tail := rows[1..];
      CountFull(tail, flag);
      assert forall i :: 0 < i < |rows| ==> rows[i] == tail[i - 1];
    }
  }

  /** No row carries the flag exactly when the count is zero. */
  lemma {:induction false} CountEmpty(rows: seq<OrderRow>, flag: Flag)
    ensures Count(rows, flag) == 0 <==> forall i :: 0 <= i < |rows| ==> !HasFlag(rows[i], flag)
  {
    if |rows| > 0 {
      var tail := rows[1..];
      CountEmpty(tail, flag);
      assert forall i :: 0 < i < |rows| ==> rows[i] == tail[i - 1];
    }
  }

  /** Counting distributes over concatenation. */
  lemma {:induction false} CountConcat(a: seq<OrderRow>, b: seq<OrderRow>, flag: Flag)
    ensures Count(a + b, flag) == Count(a, flag) + Count(b, flag)
  {
    if |a| == 0 {
      assert a + b == b;
    } else {
      assert (a + b)[1..] == a[1..] + b;
      CountConcat(a[1..], b, flag);
    }
  }

  /** Appending a row adds its indicator to the count. */
  lemma CountAppend(rows: seq<OrderRow>, row: OrderRow, flag: Flag)
    ensures Count(rows + [row], flag) == Count(rows, flag) + Indicator(row, flag)
  {
    CountConcat(rows, [row], flag);
    assert Count([row], flag) == Indicator(row, flag) by {
      assert [row][1..] == [];
    }
  }

  /** Deleting the row at `i` removes its indicator from the count. */
  lemma CountRemoveAt(rows: seq<OrderRow>, i: nat, flag: Flag)
    requires i < |rows|
    ensures Count(rows[..i] + rows[i + 1..], flag) == Count(rows, flag) - Indicator(rows[i], flag)
  {
    assert rows == rows[..i] + ([rows[i]] + rows[i + 1..]);
    CountConcat(rows[..i], [rows[i]] + rows[i + 1..], flag);
    CountConcat([rows[i]], rows[i + 1..], flag);
    CountConcat(rows[..i], rows[i + 1..], flag);
    assert Count([rows[i]], flag) == Indicator(rows[i], flag) by {
      assert [rows[i]][1..] == [];
    }
  }

  /** Replacing the row at `i` swaps its indicator in the count. */
  lemma CountUpdate(rows: seq<OrderRow>, i: nat, row: OrderRow, flag: Flag)
    requires i < |rows|
    ensures Count(rows[i := row], flag) == Count(rows, flag) - Indicator(rows[i], flag) + Indicator(row, flag)
  {
    var updated := rows[i := row];
    assert updated == rows[..i] + [row] + rows[i + 1..];
    assert updated[..i] + updated[i + 1..] == rows[..i] + rows[i + 1..];
    CountRemoveAt(updated, i, flag);
    CountRemoveAt(rows, i, flag);
  }

  /** The row at `j` is the first one whose material has `code`. */
  predicate IsFirstWithCode(rows: seq<OrderRow>, code: Long, j: int) {
    && 0 <= j < |rows|
    && rows[j].material.code == code
    && forall k :: 0 <= k < j ==> rows[k].material.code != code
  }

  /** No row has a material with `code`. */
  predicate NoneWithCode(rows: seq<OrderRow>, code: Long) {
    forall k :: 0 <= k < |rows| ==> rows[k].material.code != code
  }

  /** Position of the first row whose material has `code`, if any row has it. */
  function FindFirstWithCode(rows: seq<OrderRow>, code: Long): (r: Option<nat>)
    ensures r.Some? ==> IsFirstWithCode(rows, code, r.value)
    ensures r.None? <==> NoneWithCode(rows, code)
  {
    if |rows| == 0 then None
    else if rows[0].material.code == code then Some(0)
    else match FindFirstWithCode(rows[1..], code)
      case None => None
      case Some(i) => Some(i + 1)
  }

  /** The first position holding `row`, as `List.indexOf` finds it (equality is value equality). */
  function IndexOf(rows: seq<OrderRow>, row: OrderRow): (r: Option<nat>)
    ensures r.None? <==> row !in rows
    ensures r.Some? ==> r.value < |rows| && rows[r.value] == row
    ensures r.Some? ==> forall k :: 0 <= k < r.value ==> rows[k] != row
  {
    if |rows| == 0 then None
    else if rows[0] == row then Some(0)
    else match IndexOf(rows[1..], row)
      case None => None
      case Some(i) => Some(i + 1)
  }

  /**
   `List.remove(Object)`: drop the first occurrence of `row`, keeping the
   order of the others; nothing happens when `row` is absent.
   */
  function RemoveFirst(rows: seq<OrderRow>, row: OrderRow): (r: seq<OrderRow>)
    ensures row !in rows ==> r == rows
    ensures row in rows ==> |r| == |rows| - 1
    ensures multiset(r) == multiset(rows) - multiset{row}
    ensures row in rows ==> exists i :: && 0 <= i < |rows| && rows[i] == row
                                        && (forall k :: 0 <= k < i ==> rows[k] != row)
                                        && r == rows[..i] + rows[i + 1..]
  {
    match IndexOf(rows, row)
    case None => rows
    case Some(i) =>
      assert rows == rows[..i] + [rows[i]] + rows[i + 1..];
      rows[..i] + rows[i + 1..]
  }

  /** Removing a row that was just appended to a list not holding it gives back the list. */
  lemma RemoveFirstAfterAppend(rows: seq<OrderRow>, row: OrderRow)
    requires row !in rows
    ensures RemoveFirst(rows + [row], row) == rows
  {
    var added := rows + [row];
    var i :| && 0 <= i < |added| && added[i] == row
             && (forall k :: 0 <= k < i ==> added[k] != row)
             && RemoveFirst(added, row) == added[..i] + added[i + 1..];
    assert forall k :: 0 <= k < |rows| ==> added[k] == rows[k];
    assert added[..i] == rows;
  }

  /**
   Marking the first row whose material has `code` changes that row alone, and
   leaves the count of the other flag as it was.
   */
  lemma MarkFirstWithCode(rows: seq<OrderRow>, code: Long, i: nat, flag: Flag)
    requires IsFirstWithCode(rows, code, i)
    ensures forall j :: 0 <= j < |rows| ==>
              rows[i := Mark(rows[i], flag)][j] == (if IsFirstWithCode(rows, code, j) then Mark(rows[j], flag) else rows[j])
    ensures Count(rows[i := Mark(rows[i], flag)], OtherFlag(flag)) == Count(rows, OtherFlag(flag))
  {
    CountUpdate(rows, i, Mark(rows[i], flag), OtherFlag(flag));
  }
}

=== FILE: orders.dfy ===
/**
 The Order entity: guarded setters, guarded edits of the row list, marking
 rows as allocated or completed by material code, and the two derived
 percentages with the predicates built on them.

 The Java class mutates itself and reports success as a boolean; here every
 mutator is a pure function returning the new order, paired with that
 boolean where the source returns one. Persistence metadata carries no
 behaviour and is not modelled.
 */
module Orders {
  import opened Base
  import opened OrderRows
  import opened Percentages

  /** `java.util.Date`: an instant in milliseconds since the epoch. */
  datatype Date = Date(millis: Long)

  /** Enum constants, by name. Only LOW, INPUT and WAITING are named by Order itself. */
  datatype Priority = Priority(name: string)
  datatype OrderType = OrderType(name: string)
  datatype OrderStatus = OrderStatus(name: string)

  const LOW: Priority := Priority("LOW")
  const INPUT: OrderType := OrderType("INPUT")
  const WAITING: OrderStatus := OrderStatus("WAITING")

  /**
   The fields of an order. `orderStatus` and `doneDate` are never changed by
   the operations below; they are kept so that "nothing else changes" covers them.
   */
  datatype Order = Order(
    id: Long,
    emissionDate: Option<Date>,
    priority: Option<Priority>,
    rows: seq<OrderRow>,
    orderType: Option<OrderType>,
    orderStatus: OrderStatus,
    completePercentual: real,
    allocationPercentual: real,
    doneDate: Option<Date>)

  /** The stored percentage that belongs to `flag`. */
  function Percentual(o: Order, flag: Flag): real {
    match flag
    case Allocated => o.allocationPercentual
    case Completed => o.completePercentual
  }

  /** The stored percentage for `flag` is the exact share of rows carrying that flag. */
  predicate PercentualUpToDate(o: Order, flag: Flag) {
    Percentual(o, flag) == Percent(Count(o.rows, flag), |o.rows|)
  }

  /** Both stored percentages agree with the rows. */
  predicate Consistent(o: Order) {
    PercentualUpToDate(o, Allocated) && PercentualUpToDate(o, Completed)
  }

  /** `a` and `b` differ at most in their percentages. */
  predicate SameButPercentuals(a: Order, b: Order) {
    a.(allocationPercentual := 0.0, completePercentual := 0.0)
      == b.(allocationPercentual := 0.0, completePercentual := 0.0)
  }

  /** `a` and `b` differ at most in their rows and percentages. */
  predicate SameButRowsAndPercentuals(a: Order, b: Order) {
    a.(rows := [], allocationPercentual := 0.0, completePercentual := 0.0)
      == b.(rows := [], allocationPercentual := 0.0, completePercentual := 0.0)
  }

  // ---------------------------------------------------------------- constructors

  /** `new Order()`: every field at its default. */
  function EmptyOrder(): (o: Order)
    ensures o.id == 0 && o.emissionDate == None && o.rows == [] && o.priority == Some(LOW)
    ensures o.orderType == None && o.orderStatus == WAITING && o.doneDate == None
    ensures o.allocationPercentual == 0.0 && o.completePercentual == 0.0
    ensures Consistent(o) && IsEditable(o) && CanDelete(o) && !IsDataComplete(o)
  {
    Order(0, None, Some(LOW), [], None, WAITING, 0.0, 0.0, None)
  }

  /** `new Order(id, emissionDate, orderType, priority)`: an order with no rows (a null priority is stored as given). */
  function NewOrder(id: Long, emissionDate: Option<Date>, orderType: Option<OrderType>, priority: Option<Priority>): (o: Order)
    ensures o.id == id && o.emissionDate == emissionDate && o.orderType == orderType && o.priority == priority
    ensures o.rows == [] && o.orderStatus == WAITING && o.doneDate == None
    ensures Consistent(o) && IsEditable(o) && CanDelete(o)
    ensures IsDataComplete(o) <==> id != 0 && emissionDate.Some?
  {
    EmptyOrder().(id := id, emissionDate := emissionDate, orderType := orderType, priority := priority)
  }

  /** `new Order(id, emissionDate, orderType)`: the priority keeps its default LOW. */
  function NewOrderDefaultPriority(id: Long, emissionDate: Option<Date>, orderType: Option<OrderType>): (o: Order)
    ensures o == NewOrder(id, emissionDate, orderType, Some(LOW))
  {
    EmptyOrder().(id := id, emissionDate := emissionDate, orderType := orderType)
  }

  /** `new Order(id)`: emitted at `now` (the clock is a parameter), of type INPUT, priority LOW. */
  function NewOrderNow(id: Long, now: Date): (o: Order)
    ensures o == NewOrder(id, Some(now), Some(INPUT), Some(LOW))
    ensures IsDataComplete(o) <==> id != 0
  {
    NewOrder(id, Some(now), Some(INPUT), Some(LOW))
  }

  /**
   `new Order(id, emissionDate, orderType, priority, rows)`: the rows are
   adopted as given and the percentages are NOT recomputed, so they stay 0
   whatever the rows say.
   */
  function NewOrderWithRows(id: Long, emissionDate: Option<Date>, orderType: Option<OrderType>,
                            priority: Option<Priority>, rows: seq<OrderRow>): (o: Order)
    ensures o.rows == rows
    ensures SameButRowsAndPercentuals(o, NewOrder(id, emissionDate, orderType, priority))
    ensures o.allocationPercentual == 0.0 && o.completePercentual == 0.0
    ensures IsEditable(o) && CanDelete(o)
  {
    NewOrder(id, emissionDate, orderType, priority).(rows := rows)
  }

  // ---------------------------------------------------------------- predicates

  /**
   `isDataComplete()`: the order has been given an id and an emission date.
   */
  function IsDataComplete(o: Order): (complete: bool)
    ensures complete <==> o.id != 0 && o.emissionDate != None
  {
    if o.id == 0 then false
    else if o.emissionDate.None? then false
    else true
  }

  /**
   `isEditable()`: neither stored percentage has reached 100. With the
   percentages up to date, that is: no rows, or some row not yet allocated and
   some row not yet completed.
   */
  function IsEditable(o: Order): (editable: bool)
    ensures Consistent(o) ==>
              (editable <==>
                 || |o.rows| == 0
                 || (&& (exists i :: 0 <= i < |o.rows| && !o.rows[i].isAllocated)
                     && (exists i :: 0 <= i < |o.rows| && !o.rows[i].isCompleted)))
  {
    PercentBelowFull(Count(o.rows, Allocated), |o.rows|);
    PercentBelowFull(Count(o.rows, Completed), |o.rows|);
    CountFull(o.rows, Allocated);
    CountFull(o.rows, Completed);
    o.allocationPercentual < 100.0 && o.completePercentual < 100.0
  }

  /**
   `canDelete()`. The code accepts an order when EITHER percentage is at most
   0; its doc-comment asks for both to be 0. The model follows the code. With
   the percentages up to date, that is: no row allocated, or no row completed.
   */
  function CanDelete(o: Order): (deletable: bool)
    ensures Consistent(o) ==>
              (deletable <==>
                 || (forall i :: 0 <= i < |o.rows| ==> !o.rows[i].isAllocated)
                 || (forall i :: 0 <= i < |o.rows| ==> !o.rows[i].isCompleted))
  {
    PercentAtMostZero(Count(o.rows, Allocated), |o.rows|);
    PercentAtMostZero(Count(o.rows, Completed), |o.rows|);
    CountEmpty(o.rows, Allocated);
    CountEmpty(o.rows, Completed);
    o.allocationPercentual <= 0.0 || o.completePercentual <= 0.0
  }

  // ---------------------------------------------------------------- setters

  /**
   `setId(id)`. The doc-comment says the id may be set while the order is new
   (current id 0), but the code tests the ARGUMENT: it succeeds only for 0,
   which it then stores. The model follows the code.
   */
  function SetId(o: Order, id: Long): (res: (Order, bool))
    ensures res.1 <==> id == 0
    ensures res.1 ==> res.0 == o.(id := 0)
    ensures !res.1 ==> res.0 == o
  {
    if id != 0 then (o, false)
    else (o.(id := id), true)
  }

  /** `setEmissionDate(date)`: only an editable order takes a new emission date (null included). */
  function SetEmissionDate(o: Order, emissionDate: Option<Date>): (res: (Order, bool))
    ensures res.1 <==> IsEditable(o)
    ensures res.1 ==> res.0 == o.(emissionDate := emissionDate)
    ensures !res.1 ==> res.0 == o
  {
    if !IsEditable(o) then (o, false)
    else (o.(emissionDate := emissionDate), true)
  }

  /** `setPriority(priority)`: only an editable order takes a new priority (null included). */
  function SetPriority(o: Order, priority: Option<Priority>): (res: (Order, bool))
    ensures res.1 <==> IsEditable(o)
    ensures res.1 ==> res.0 == o.(priority := priority)
    ensures !res.1 ==> res.0 == o
  {
    if !IsEditable(o) then (o, false)
    else (o.(priority := priority), true)
  }

  // ---------------------------------------------------------------- percentages

  /**
   `updateAllocatedPercentual()` / `updateCompletedPercentual()`: recompute
   the percentage of one flag from the rows, 0 when there are none.
   */
  function UpdatePercentual(o: Order, flag: Flag): (r: Order)
    ensures PercentualUpToDate(r, flag)
    ensures |o.rows| == 0 ==> Percentual(r, flag) == 0.0
    ensures |o.rows| > 0 ==> Percentual(r, flag) * (|o.rows| as real) == 100.0 * (Count(o.rows, flag) as real)
    ensures 0.0 <= Percentual(r, flag) <= 100.0
    ensures forall other: Flag :: other != flag ==> Percentual(r, other) == Percentual(o, other)
    ensures SameButPercentuals(r, o)
  {
    var p := Percent(Count(o.rows, flag), |o.rows|);
    match flag
    case Allocated => o.(allocationPercentual := p)
    case Completed => o.(completePercentual := p)
  }

  /** `updateAllocatedPercentual()`. */
  function UpdateAllocatedPercentual(o: Order): (r: Order)
    ensures PercentualUpToDate(r, Allocated)
    ensures |o.rows| == 0 ==> r.allocationPercentual == 0.0
    ensures |o.rows| > 0 ==> r.allocationPercentual * (|o.rows| as real) == 100.0 * (Count(o.rows, Allocated) as real)
    ensures r.completePercentual == o.completePercentual && SameButPercentuals(r, o)
  {
    UpdatePercentual(o, Allocated)
  }

  /** `updateCompletedPercentual()`. */
  function UpdateCompletedPercentual(o: Order): (r: Order)
    ensures PercentualUpToDate(r, Completed)
    ensures |o.rows| == 0 ==> r.completePercentual == 0.0
    ensures |o.rows| > 0 ==> r.completePercentual * (|o.rows| as real) == 100.0 * (Count(o.rows, Completed) as real)
    ensures r.allocationPercentual == o.allocationPercentual && SameButPercentuals(r, o)
  {
    UpdatePercentual(o, Completed)
  }

  /** Both percentages recomputed, as `addMaterial` and `removeMaterial` do after editing the rows. */
  function UpdatePercentuals(o: Order): (r: Order)
    ensures Consistent(r) && SameButPercentuals(r, o)
  {
    UpdateCompletedPercentual(UpdateAllocatedPercentual(o))
  }

  // ---------------------------------------------------------------- row edits

  /**
   `addMaterial(row)`: an editable order takes a row whose data is complete,
   appended at the end, and recomputes both percentages. The code returns
   false on BOTH paths, although its doc-comment promises true when the row
   is added. The model follows the code.
   */
  function AddMaterial(o: Order, row: OrderRow): (res: (Order, bool))
    ensures !res.1
    ensures !IsEditable(o) || !row.dataComplete ==> res.0 == o
    ensures IsEditable(o) && row.dataComplete ==>
              && res.0.rows == o.rows + [row]
              && Consistent(res.0)
              && SameButRowsAndPercentuals(res.0, o)
  {
    if !IsEditable(o) || !row.dataComplete then (o, false)
    else (UpdatePercentuals(o.(rows := o.rows + [row])), false)
  }

  /**
   `removeMaterial(row)`: an editable order drops the first occurrence of the
   row (nothing, when it is absent), recomputes both percentages and reports
   true; a non-editable order reports false and stays as it is.
   */
  function RemoveMaterial(o: Order, row: OrderRow): (res: (Order, bool))
    ensures res.1 <==> IsEditable(o)
    ensures !res.1 ==> res.0 == o
    ensures res.1 ==>
              && res.0.rows == RemoveFirst(o.rows, row)
              && Consistent(res.0)
              && SameButRowsAndPercentuals(res.0, o)
    ensures res.1 && row !in o.rows ==> res.0.rows == o.rows
    ensures res.1 && row in o.rows ==> |res.0.rows| == |o.rows| - 1
  {
    if !IsEditable(o) then (o, false)
    else (UpdatePercentuals(o.(rows := RemoveFirst(o.rows, row))), true)
  }

  // ---------------------------------------------------------------- marking rows

  /**
   `setMaterialAsAllocated(code)` / `setMaterialAsCompleted(code)`: mark the
   first row whose material has `code` and recompute that flag's percentage
   only. Editability is not checked. With no such row nothing happens.
   */
  function MarkMaterial(o: Order, code: Long, flag: Flag): (r: Order)
    ensures |r.rows| == |o.rows|
    ensures forall j :: 0 <= j < |o.rows| ==>
              r.rows[j] == (if IsFirstWithCode(o.rows, code, j) then Mark(o.rows[j], flag) else o.rows[j])
    ensures NoneWithCode(o.rows, code) ==> r == o
    ensures !NoneWithCode(o.rows, code) ==> PercentualUpToDate(r, flag)
    ensures forall other: Flag :: other != flag ==> Percentual(r, other) == Percentual(o, other)
    ensures SameButRowsAndPercentuals(r, o)
    ensures Consistent(o) ==> Consistent(r)
  {
    match FindFirstWithCode(o.rows, code)
    case None => o
    case Some(i) =>
      MarkFirstWithCode(o.rows, code, i, flag);
      UpdatePercentual(o.(rows := o.rows[i := Mark(o.rows[i], flag)]), flag)
  }

  /** `setMaterialAsAllocated(long materialId)`. */
  function SetMaterialAsAllocatedByCode(o: Order, code: Long): (r: Order)
    ensures |r.rows| == |o.rows|
    ensures forall j :: 0 <= j < |o.rows| ==>
              r.rows[j] == (if IsFirstWithCode(o.rows, code, j) then Mark(o.rows[j], Allocated) else o.rows[j])
    ensures forall j :: 0 <= j < |o.rows| ==>
              r.rows[j].isAllocated == (o.rows[j].isAllocated || IsFirstWithCode(o.rows, code, j))
    ensures NoneWithCode(o.rows, code) ==> r == o
    ensures !NoneWithCode(o.rows, code) ==> PercentualUpToDate(r, Allocated)
    ensures r.completePercentual == o.completePercentual
    ensures SameButRowsAndPercentuals(r, o)
    ensures Consistent(o) ==> Consistent(r)
  {
    MarkMaterial(o, code, Allocated)
  }

  /** `setMaterialAsAllocated(Material material)`: by the material's code. */
  function SetMaterialAsAllocated(o: Order, material: Material): (r: Order)
    ensures r == SetMaterialAsAllocatedByCode(o, material.code)
  {
    MarkMaterial(o, material.code, Allocated)
  }

  /** `setMaterialAsCompleted(long materialId)`. */
  function SetMaterialAsCompletedByCode(o: Order, code: Long): (r: Order)
    ensures |r.rows| == |o.rows|
    ensures forall j :: 0 <= j < |o.rows| ==>
              r.rows[j] == (if IsFirstWithCode(o.rows, code, j) then Mark(o.rows[j], Completed) else o.rows[j])
    ensures forall j :: 0 <= j < |o.rows| ==>
              r.rows[j].isCompleted == (o.rows[j].isCompleted || IsFirstWithCode(o.rows, code, j))
    ensures NoneWithCode(o.rows, code) ==> r == o
    ensures !NoneWithCode(o.rows, code) ==> PercentualUpToDate(r, Completed)
    ensures r.allocationPercentual == o.allocationPercentual
    ensures SameButRowsAndPercentuals(r, o)
    ensures Consistent(o) ==> Consistent(r)
  {
    MarkMaterial(o, code, Completed)
  }

  /** `setMaterialAsCompleted(Material material)`: by the material's code. */
  function SetMaterialAsCompleted(o: Order, material: Material): (r: Order)
    ensures r == SetMaterialAsCompletedByCode(o, material.code)
  {
    MarkMaterial(o, material.code, Completed)
  }
}

=== FILE: percentages.dfy ===
/**
 The allocation and completion percentages of an order, as exact ratios.
 The source computes `((float) part / whole) * 100` in single precision; here
 the same expression is evaluated over the rationals.
 */
module Percentages {

  /** `part` out of `whole` as a percentage; 0 when `whole` is 0. */
  function Percent(part: nat, whole: nat): (p: real)
    requires part <= whole
    ensures 0.0 <= p <= 100.0
    ensures whole == 0 ==> p == 0.0
    ensures whole > 0 ==> p * (whole as real) == 100.0 * (part as real)
  {
    if whole == 0 then 0.0 else (part as real) / (whole as real) * 100.0
  }

  /** The percentage stays below 100 exactly when the whole is empty or some of it is missing. */
  lemma PercentBelowFull(part: nat, whole: nat)
    requires part <= whole
    ensures Percent(part, whole) < 100.0 <==> whole == 0 || part < whole
  {
    if whole > 0 {
      var p := Percent(part, whole);
      if part == whole {
        assert p * (whole as real) == 100.0 * (whole as real);
      } else {
        assert (part as real) < (whole as real);
        assert p * (whole as real) < 100.0 * (whole as real);
      }
    }
  }

  /** The percentage is at most 0 exactly when the part is empty. */
  lemma PercentAtMostZero(part: nat, whole: nat)
    requires part <= whole
    ensures Percent(part, whole) <= 0.0 <==> part == 0
  {
    if whole > 0 && part > 0 {
      assert Percent(part, whole) * (whole as real) > 0.0;
    }
  }

  /** A larger part of the same whole never gives a smaller percentage. */
  lemma PercentMonotonic(part: nat, part': nat, whole: nat)
    requires part <= part' <= whole
    ensures Percent(part, whole) <= Percent(part', whole)
  {
    if whole > 0 {
      var w := whole as real;
      var gap := ((part' - part) as real) / w;
      assert gap * w == (part' - part) as real;
      assert gap >= 0.0;
      assert (part' as real) / w == (part as real) / w + gap;
    }
  }
}
